=== FILE: README.md ===
# Port scanner core, modelled in Dafny

This project models the pure logic of a small TCP/UDP port scanner
(`portScanner.py`). It covers four pieces:

- **Port list from the command line.** The scanner takes the `-p` values, falls
  back to a default list when there are none, and converts each plain value to
  an integer.
- **Port expansion in `main`.** A second default applies when the list is empty.
  Each entry then becomes a block of ports: a single port, or the inclusive
  ascending range of a `"start-end"` entry. One malformed entry aborts the run.
- **One probe per port.** The outcome of the connection attempt is classified as
  open, filtered or closed, or reported as an error. The service name is looked
  up, with a fallback name. The result is written as one line of text.
- **Ordered collection.** Results come back in submission order, whatever order
  the pool's workers finish in.

Modules, one per file:

| file | module | contents |
|---|---|---|
| `wrappers.dfy` | `Wrappers` | `Option`, `Result`, and `MapAll`: a left-to-right loop that stops at the first exception |
| `text.dfy` | `Text` | `int()` on decimal text, `str()` of an integer, `str.split` on one character, first-occurrence search |
| `expander.dfy` | `Expander` | port-list entries, range parsing, `range(lo, hi + 1)`, the expansion loop of `main` |
| `probe.dfy` | `Probe` | connection outcome, status classification, service fallback, the printed line and a reader for it |
| `scanner.dfy` | `Scanner` | the two default lists, the command-line conversion, the pool, the whole run |

The network enters as a parameter, `Network = (target, protocol, port) -> outcome`.
An outcome is either the integer `connect_ex` returned or the message of the
exception raised. The system's service table (`getservbyport`) enters as a
`map<int, string>`.

Three behaviours of the code are easy to misread:

- A range entry is split on **every** `-`, not only on the first one. It must
  then unpack into exactly two integers. So `"1-2-3"` fails, and so does
  `"-5"`: it splits into an empty start and `5`.
- Nothing checks that the start of a range is at most its end, or that a port
  lies in 1..65535. `"80-20"` expands to nothing, and `70000` is probed as
  given.
- The default list of `main` (22, 80, 443, 8080) is never reached from the
  command line. The command-line layer replaces an absent or empty `-p` with
  its own list (21, 22, 53, 80, 443, 445, 8080) before `main` runs.
  `main` also checks for emptiness *before* expansion. So `-p 80-20` scans
  nothing and prints no default notice.

## Model

| member | source | states |
|---|---|---|
| `Text.IntToString` | portScanner.py:30-36 | `str(n)` is the decimal numeral of n without leading zeros, preceded by a minus sign exactly when n is negative |
| `Text.ParseInt` | portScanner.py:62-65 | `int()` succeeds exactly on an optionally signed run of decimal digits, and its value is the decimal value of the digits, negated after a minus sign; leading zeros and a plus sign are accepted |
| `Text.ParseIntToString` | portScanner.py:30-36 | reading back the printed form of any integer gives that integer |
| `Text.ParseIntWithoutMinus` | portScanner.py:62-65 | text without a minus sign never parses to a negative number |
| `Text.Split` | portScanner.py:62 | `split('-')` always yields at least one piece, and no piece contains the separator |
| `Text.JoinSplit` | portScanner.py:62 | joining the pieces of `split` with the separator gives back the original text |
| `Text.SplitJoin` | portScanner.py:62 | `split` recovers any separator-free pieces from their join, so the split is the unique such decomposition |
| `Text.SplitCount` | portScanner.py:62 | there is exactly one more piece than there are separators |
| `Text.SplitAtSeparator` | portScanner.py:61-62 | a value holding `-` splits into at least two pieces, so the unpacking never lacks values |
| `Expander.ParseRange` | portScanner.py:61-62 | a range entry is accepted exactly when it splits into two pieces that are both integer literals, and then it is the range between their `int()` values, both non-negative; a rejected entry raises what unpacking raises: the first of its first three pieces that is not an integer literal, or "too many values" once three pieces have converted |
| `Expander.ParseArg` | portScanner.py:60-65 | an integer entry is a single port; a string without `-` is accepted exactly when it is an integer literal, and is then the single port `int(text)`, non-negative, and otherwise fails on its own text; a string holding `-` is accepted exactly when it splits into two integer literals, and is then the range between their values, and otherwise fails with the error unpacking raises; only such strings become ranges |
| `Expander.NonNumericStartFails` | portScanner.py:62 | a range entry whose start is not an integer literal fails on that start, whatever follows the `-` |
| `Expander.ParseTokenText` | portScanner.py:61-65 | the typed form of any port or range with non-negative numbers reads back as that token, with no bounds check |
| `Expander.NegativeTextFails` | portScanner.py:61-62 | a negative number typed as an entry is treated as a range with an empty start and fails |
| `Expander.TwoDashesFail` | portScanner.py:62 | `"1-2-3"` fails with too many values |
| `Expander.NonNumericRangeFails` | portScanner.py:62 | `"a-b"` fails on its first end |
| `Expander.OpenRangeFails` | portScanner.py:62 | `"1-"` fails on its empty end |
| `Expander.NameFails` | portScanner.py:65 | a non-numeric single entry such as `"http"` fails |
| `Expander.ExpandArgs` | portScanner.py:59-65 | the expansion of a list succeeds exactly when every entry parses, and is then the concatenated blocks of the parsed entries; otherwise it fails with the error of the first entry that does not parse |
| `Expander.RangeBlock` | portScanner.py:46-48 | the block of `(lo, hi)` has length max(0, hi - lo + 1), and its i-th element is lo + i |
| `Expander.RangeBlockMembers` | portScanner.py:46-48 | a port is in the block exactly when lo <= port <= hi |
| `Expander.RangeBlockAscending` | portScanner.py:46-48 | the block is strictly ascending, so it holds no duplicates |
| `Expander.ExpandAppend` | portScanner.py:59-65 | the expansion of two concatenated entry lists is the concatenation of their expansions, so token order is kept |
| `Expander.ExpandLength` | portScanner.py:59-65 | the expansion is exactly as long as the sum of the block sizes, so nothing is deduplicated |
| `Expander.ExpandMembers` | portScanner.py:59-65 | a port is expanded exactly when some entry covers it |
| `Expander.ExpandPorts` | portScanner.py:59-65 | the loop that extends `expanded_ports` yields the concatenated blocks when every entry parses, and otherwise the first entry's error, with no partial list |
| `Expander.DuplicatesKept` | portScanner.py:59-65 | the entries `22 20-22` expand to 22, 20, 21, 22 |
| `Wrappers.MapAll` | portScanner.py:59-65 | a loop of conversions succeeds exactly when every element converts, gives one result per element in order, and otherwise returns the first element's error |
| `Wrappers.MapAllStopsAtFailure` | portScanner.py:59-65 | once a prefix fails, the elements after it do not change the outcome |
| `Probe.Classify` | portScanner.py:29-34 | classification is total: code 0 is open, code 11 is filtered, every other code is closed |
| `Probe.DetectService` | portScanner.py:17-22 | the name is the table entry when the port has one, and otherwise "Unknown service"; the lookup never fails |
| `Probe.AnalysePort` | portScanner.py:24-36 | the report names the probed port; it is an error exactly when the attempt raised, carrying the message; otherwise it holds the classified code and the service name |
| `Probe.StatusNameRoundTrip` | portScanner.py:30-34 | each status word reads back as its status |
| `Probe.ReadFormatLine` | portScanner.py:30-36 | every printed line reads back as the report it came from: port, status, service name or error message |
| `Probe.FormatLineInjective` | portScanner.py:30-36 | different reports never print as the same line |
| `Probe.OutOfRangePortFails` | portScanner.py:26-36 | when the network raises for ports outside 0..65535, as CPython's `connect_ex` does, such a port always gets an error line carrying the message |
| `Probe.FormatLine` | portScanner.py:30-36 | a line starts with `Port ` exactly for a classified report and with `Error checking port ` exactly for an error report; a classified line ends with `)`, an error line with the message |
| `Probe.ProbeLine` | portScanner.py:24-36 | the line of one probe reads back as the probe's report: it names the probed port, it is an error line carrying the message exactly when the attempt raised, and otherwise it carries the classified status and the service name |
| `Scanner.CliArg` | portScanner.py:93-97 | a value holding `-` is passed on as text; any other value is accepted exactly when it is an integer literal, and is then the non-negative number `int(value)`; otherwise it fails on its own text |
| `Scanner.CliPorts` | portScanner.py:89-97 | an absent or empty `-p` becomes the seven command-line defaults; otherwise the list is accepted exactly when every value converts, entry i is the conversion of value i, and a failure carries the error of the first rejected value; an accepted list is never empty |
| `Scanner.MainPorts` | portScanner.py:55-57 | an empty list becomes `main`'s four defaults (22, 80, 443, 8080), a non-empty list is kept as given, so the list `main` expands is never empty |
| `Scanner.MainDefaultExpands` | portScanner.py:55-57 | `main`'s default list expands to exactly 22, 80, 443, 8080, which is not the command-line default list |
| `Scanner.MainDefaultUnreachable` | portScanner.py:55-57 | `main`'s default never replaces a list that came from the command line |
| `Scanner.ScannedPorts` | portScanner.py:89-99 | a conversion error on the command line aborts before expansion; otherwise the ports scanned are the expansion of the command-line list itself, so `main`'s default never steps in |
| `Scanner.Scan` | portScanner.py:67-70 | there is one line per expanded port, and the i-th line reads back as the probe report of the i-th port |
| `Scanner.CollectInOrder` | portScanner.py:67-70 | whatever order the tasks finish in, the collected results are the per-port results in submission order |
| `Scanner.ScanWithPool` | portScanner.py:67-70 | the pool's output equals the in-order scan for every completion order |
| `Scanner.Run` | portScanner.py:89-99 | a run fails exactly when the port list fails to parse, with that error and no lines; otherwise it prints one line per expanded port, in order, and line i reads back as the probe report of port i |
| `Scanner.DefaultRun` | portScanner.py:89-90 | with no `-p` values the run scans exactly 21, 22, 53, 80, 443, 445, 8080, in that order, and prints seven lines |
| `Scanner.CliPortsNonNegative` | portScanner.py:92-97 | every port reached from the command line is non-negative |
| `Scanner.AnyPortScanned` | portScanner.py:92-97 | any non-negative port typed on the command line is scanned as given, with no bounds check |
| `Scanner.AnyPortRun` | portScanner.py:67-70 | a run for one typed port prints exactly that port's probe line |
| `Scanner.DescendingRangeScansNothing` | portScanner.py:46-48 | a range whose start exceeds its end expands to no port at all, and no default takes its place |
| `Scanner.DescendingRangeRun` | portScanner.py:55-70 | the run for such a range prints no probe line |
| `Scanner.DuplicateLinesAgree` | portScanner.py:67-70 | a port listed twice gets two identical lines |
| `Scanner.UnreachableTargetReportsEveryPort` | portScanner.py:35-36 | when every attempt raises, every port still gets its own error line carrying the message |

## Left out

- Socket creation, `connect_ex` and the one-second timeout (portScanner.py:26-28): these are network I/O, so the connection outcome is the abstract `Network` parameter.
- Closing the socket (the `with` block) is not modelled; it has no effect on the output.
- `socket.getservbyport` (portScanner.py:19) is the abstract table `services`. For a port outside 0..65535 it raises `OverflowError`, which the `except OSError` does not catch. The model does not include this. Its `Network` may return a code for such a port, which CPython's `connect_ex` never does: it raises `OverflowError` first. On a network that raises for them (`Probe.PortRangeEnforced`), `Probe.OutOfRangePortFails` proves that such ports get an error line, so the lookup is never reached.
- The text of an exception (`{e}`) is an abstract string carried by the outcome.
- Scanner.DuplicateLinesAgree: the network is one fixed function of (target, protocol, port), so the model assumes the remote state does not change during a run. In the program each occurrence of a port makes its own `connect_ex` call (portScanner.py:28, 68). Two calls for the same port can differ, for example when one times out and the other connects.
- `geoip_lookup_online` (portScanner.py:38-44) is an HTTP call to an external service. It runs once before the scan and cannot abort it.
- The worker count of the thread pool (five) and the timing of the workers are not modelled. Only the order of collection matters to the output. It is modelled by `Scanner.CollectInOrder`, which takes the completion order as a parameter.
- `argparse` and `CustomHelpFormatter` (portScanner.py:6-15, 72-87) are a library wrapper and help-text layout. The parsed value of `-p` is the parameter `raw`, and the target and protocol are plain parameters.
- `Text.ParseInt`: Python's `int()` also accepts surrounding whitespace, underscores between digits and non-ASCII digits. The model accepts only an optional sign followed by ASCII digits.
- The printed lines "Scanning target", the GeoIP line and the "No ports specified" notice (portScanner.py:51-56) are output only. `Scanner.Run` returns just the probe lines.

=== FILE: expander.dfy ===
/**
 The port expander: turns the entries of the port list that `main` receives into
 the flat list of port numbers to probe. Entries keep their order; a range entry
 `"lo-hi"` becomes the ascending block lo, lo+1, ..., hi; one malformed entry
 aborts the whole expansion.
 */
module Expander {
  import opened Wrappers
  import opened Text

  /**
   One entry of the port list `main` receives: an integer (converted by the
   command-line layer, or one of the built-in defaults) or a string.
   */
  datatype PortArg = Number(n: int) | Word(text: string)

  /** What an entry denotes: a single port, or the inclusive range `lo-hi`. */
  datatype Token = Single(port: int) | Span(lo: int, hi: int)

  /** The `ValueError` that a malformed entry raises; it aborts the run. */
  datatype ParseError =
    | InvalidLiteral(text: string)  // `int()` rejected this text
    | TooManyValues(text: string)   // a range entry that splits into more than two pieces

  /** A range entry that unpacks: exactly two pieces around the `-`, both integer literals. */
  predicate IsRangeText(s: string) {
    var pieces := Split(s, '-');
    |pieces| == 2 && IsIntLiteral(pieces[0]) && IsIntLiteral(pieces[1])
  }

  /**
   The error unpacking a range entry raises: the first of its first three pieces
   that is not an integer literal, or "too many values" once three pieces have
   converted.
   */
  predicate IsUnpackError(s: string, e: ParseError) {
    var pieces := Split(s, '-');
    match e
    case InvalidLiteral(text) =>
      exists k :: 0 <= k < 3 && k < |pieces| && text == pieces[k] && !IsIntLiteral(pieces[k])
                  && forall j :: 0 <= j < k ==> IsIntLiteral(pieces[j])
    case TooManyValues(text) =>
      text == s && |pieces| >= 3 && IsIntLiteral(pieces[0]) && IsIntLiteral(pieces[1]) && IsIntLiteral(pieces[2])
  }

  /**
   `start, end = map(int, s.split('-'))` for an entry that contains a `-`.
   Unpacking pulls the pieces in order: the first two are converted, then a
   third is pulled (and converted) to find out that there are too many.
   */
  function ParseRange(s: string): (r: Result<Token, ParseError>)
    requires '-' in s
    ensures r.Ok? <==> IsRangeText(s)
    ensures r.Ok? ==> r.value == Span(ParseInt(Split(s, '-')[0]).value, ParseInt(Split(s, '-')[1]).value)
    ensures r.Ok? ==> r.value.lo >= 0 && r.value.hi >= 0
    ensures r.Ok? ==> multiset(s)['-'] == 1
    ensures r.Err? && r.error.InvalidLiteral? ==> !IsIntLiteral(r.error.text)
    ensures r.Err? && r.error.TooManyValues? ==> multiset(s)['-'] >= 2
    ensures r.Err? ==> IsUnpackError(s, r.error)
  {
    var pieces := Split(s, '-');
    SplitAtSeparator(s, '-');
    SplitCount(s, '-');
    match ParseInt(pieces[0])
    case None => Err(InvalidLiteral(pieces[0]))
    case Some(lo) =>
      match ParseInt(pieces[1])
      case None => Err(InvalidLiteral(pieces[1]))
      case Some(hi) =>
        if |pieces| == 2 then
          ParseIntWithoutMinus(pieces[0]);
          ParseIntWithoutMinus(pieces[1]);
          Ok(Span(lo, hi))
        else if ParseInt(pieces[2]).None? then
          Err(InvalidLiteral(pieces[2]))
        else
          Err(TooManyValues(s))
  }

  /**
   One entry of the loop in `main`: a string holding `-` is a range, anything
   else goes through `int()`.
   */
  function ParseArg(a: PortArg): (r: Result<Token, ParseError>)
    ensures a.Number? ==> r == Ok(Single(a.n))
    ensures a.Word? && '-' !in a.text ==> (r.Ok? <==> IsIntLiteral(a.text))
    ensures a.Word? && '-' in a.text ==> (r.Ok? <==> IsRangeText(a.text))
    ensures a.Word? && '-' in a.text && r.Ok? ==>
              r.value == Span(ParseInt(Split(a.text, '-')[0]).value, ParseInt(Split(a.text, '-')[1]).value)
    ensures a.Word? && '-' in a.text && r.Err? ==> IsUnpackError(a.text, r.error)
    ensures a.Word? && '-' !in a.text && r.Ok? ==> r.value == Single(ParseInt(a.text).value)
    ensures a.Word? && '-' !in a.text && r.Err? ==> r.error == InvalidLiteral(a.text)
    ensures r.Err? && r.error.InvalidLiteral? ==> !IsIntLiteral(r.error.text)
    ensures r.Ok? && r.value.Span? ==> a.Word? && '-' in a.text
    ensures a.Word? && r.Ok? ==> r.value.Span? || r.value.port >= 0
  {
    match a
    case Number(n) => Ok(Single(n))
    case Word(s) =>
      if '-' in s then
        ParseRange(s)
      else
        ParseIntWithoutMinus(s);
        match ParseInt(s)
        case None => Err(InvalidLiteral(s))
        case Some(n) => Ok(Single(n))
  }

  /** The text a user would type for a token: `"p"` or `"lo-hi"`. */
  function TokenText(t: Token): string {
    match t
    case Single(p) => IntToString(p)
    case Span(lo, hi) => IntToString(lo) + "-" + IntToString(hi)
  }

  /** A token that can be typed on the command line: no negative numbers. */
  predicate Typable(t: Token) {
    match t
    case Single(p) => p >= 0
    case Span(lo, hi) => lo >= 0 && hi >= 0
  }

  /**
   Reading the typed form of a token gives the token back; in particular the
   expander checks no bounds, so 0 or 70000 come through unchanged.
   */
  lemma ParseTokenText(t: Token)
    requires Typable(t)
    ensures ParseArg(Word(TokenText(t))) == Ok(t)
  {
    match t
    case Single(p) =>
      ParseIntToString(p);
    case Span(lo, hi) =>
      var a := IntToString(lo);
      var b := IntToString(hi);
      ParseIntToString(lo);
      ParseIntToString(hi);
      assert Join([a, b], '-') == a + "-" + b;
      SplitJoin([a, b], '-');
      assert (a + "-" + b)[|a|] == '-';
  }

  /** A negative number typed as a port is read as a range with an empty start, and fails. */
  lemma NegativeTextFails(n: int)
    requires n < 0
    ensures ParseArg(Word(IntToString(n))) == Err(InvalidLiteral(""))
  {
  }

  /** A range entry whose start is not an integer literal fails, whatever follows the `-`. */
  lemma NonNumericStartFails(x: string, y: string)
    requires '-' !in x
    requires !IsIntLiteral(x)
    ensures ParseArg(Word(x + "-" + y)) == Err(InvalidLiteral(x))
  {
    var t := "-" + y;
    var s := x + "-" + y;
    assert s == x + t;
    SplitFreePrefix(x, t, '-');
    assert Split(t, '-')[0] == "";
    assert Split(s, '-')[0] == x;
    assert s[|x|] == '-';
  }

  /** An entry with two dashes has too many pieces, even when all of them are numbers. */
  lemma TwoDashesFail()
    ensures ParseArg(Word("1-2-3")) == Err(TooManyValues("1-2-3"))
  {
    var pieces := ["1", "2", "3"];
    assert Join(pieces[2..], '-') == "3";
    assert Join(pieces[1..], '-') == "2-3";
    assert Join(pieces, '-') == "1-2-3";
    SplitJoin(pieces, '-');
    assert "1-2-3"[1] == '-';
    assert ParseInt("1") == Some(1);
    assert ParseInt("2") == Some(2);
    assert ParseInt("3") == Some(3);
  }

  /** A range whose ends are not numbers fails on the first end. */
  lemma NonNumericRangeFails()
    ensures ParseArg(Word("a-b")) == Err(InvalidLiteral("a"))
  {
    assert Join(["a", "b"], '-') == "a-b";
    SplitJoin(["a", "b"], '-');
    assert "a-b"[1] == '-';
    assert !IsDigit("a"[0]);
  }

  /** A range with a missing end fails on the empty piece. */
  lemma OpenRangeFails()
    ensures ParseArg(Word("1-")) == Err(InvalidLiteral(""))
  {
  }

  /** A service name given instead of a port number fails. */
  lemma NameFails()
    ensures ParseArg(Word("http")) == Err(InvalidLiteral("http"))
  {
  }

  /**
   `list(range(lo, hi + 1))`: the inclusive block lo, lo+1, ..., hi, which is
   empty when lo > hi.
   */
  function RangeBlock(lo: int, hi: int): (ports: seq<int>)
    ensures |ports| == if lo <= hi then hi - lo + 1 else 0
    ensures forall i :: 0 <= i < |ports| ==> ports[i] == lo + i
    decreases hi - lo
  {
    if lo > hi then [] else [lo] + RangeBlock(lo + 1, hi)
  }

  /** The block holds exactly the numbers from lo to hi. */
  lemma RangeBlockMembers(lo: int, hi: int, p: int)
    ensures p in RangeBlock(lo, hi) <==> lo <= p <= hi
  {
    if lo <= p <= hi {
      assert RangeBlock(lo, hi)[p - lo] == p;
    }
  }

  /** The block is strictly ascending, so it holds no duplicates. */
  lemma RangeBlockAscending(lo: int, hi: int)
    ensures forall i, j :: 0 <= i < j < |RangeBlock(lo, hi)| ==> RangeBlock(lo, hi)[i] < RangeBlock(lo, hi)[j]
  {
  }

  /** The ports one token stands for. */
  function Block(t: Token): seq<int> {
    match t
    case Single(p) => [p]
    case Span(lo, hi) => RangeBlock(lo, hi)
  }

  /** How many ports a token stands for, computed without expanding it. */
  function BlockSize(t: Token): nat {
    match t
    case Single(_) => 1
    case Span(lo, hi) => if lo <= hi then hi - lo + 1 else 0
  }

  /** Whether a token stands for port `p`. */
  predicate Covers(t: Token, p: int) {
    match t
    case Single(q) => p == q
    case Span(lo, hi) => lo <= p <= hi
  }

  /** The blocks of the tokens, concatenated in token order. */
  function Expand(ts: seq<Token>): seq<int>
    decreases |ts|
  {
    if |ts| == 0 then [] else Block(ts[0]) + Expand(ts[1..])
  }

  function TotalSize(ts: seq<Token>): nat
    decreases |ts|
  {
    if |ts| == 0 then 0 else BlockSize(ts[0]) + TotalSize(ts[1..])
  }

  /** Expansion distributes over concatenation of token lists. */
  lemma {:induction false} ExpandAppend(a: seq<Token>, b: seq<Token>)
    ensures Expand(a + b) == Expand(a) + Expand(b)
    decreases |a|
  {
    if |a| > 0 {
      assert (a + b)[1..] == a[1..] + b;
      ExpandAppend(a[1..], b);
    } else {
      assert a + b == b;
    }
  }

  /** The expansion is as long as the sum of the token sizes; nothing is deduplicated. */
  lemma {:induction false} ExpandLength(ts: seq<Token>)
    ensures |Expand(ts)| == TotalSize(ts)
    decreases |ts|
  {
    if |ts| > 0 {
      ExpandLength(ts[1..]);
    }
  }

  /** A port is expanded exactly when some token covers it. */
  lemma {:induction false} ExpandMembers(ts: seq<Token>, p: int)
    ensures p in Expand(ts) <==> exists i :: 0 <= i < |ts| && Covers(ts[i], p)
    decreases |ts|
  {
    if |ts| > 0 {
      ExpandMembers(ts[1..], p);
      match ts[0]
      case Single(q) =>
      case Span(lo, hi) => RangeBlockMembers(lo, hi, p);
      if exists i :: 0 <= i < |ts| && Covers(ts[i], p) {
        var i :| 0 <= i < |ts| && Covers(ts[i], p);
        if i > 0 {
          assert Covers(ts[1..][i - 1], p);
        }
      }
      if exists i :: 0 <= i < |ts[1..]| && Covers(ts[1..][i], p) {
        var i :| 0 <= i < |ts[1..]| && Covers(ts[1..][i], p);
        assert Covers(ts[i + 1], p);
      }
    }
  }

  /** The expanded port list `main` scans, or the error that aborts it. */
  function ExpandArgs(args: seq<PortArg>): (r: Result<seq<int>, ParseError>)
    ensures r.Ok? <==> forall i :: 0 <= i < |args| ==> ParseArg(args[i]).Ok?
    ensures r.Err? ==> exists i :: 0 <= i < |args| && ParseArg(args[i]) == Err(r.error)
                                   && forall j :: 0 <= j < i ==> ParseArg(args[j]).Ok?
    ensures r.Ok? ==> exists ts :: |ts| == |args| && (forall i :: 0 <= i < |args| ==> ParseArg(args[i]) == Ok(ts[i]))
                                   && r.value == Expand(ts)
  {
    match MapAll(ParseArg, args)
    case Err(e) => Err(e)
    case Ok(ts) => Ok(Expand(ts))
  }

  /**
   The loop in `main` that builds `expanded_ports`: each entry appends its block
   in turn, and a malformed entry stops everything.
   */
  method ExpandPorts(args: seq<PortArg>) returns (r: Result<seq<int>, ParseError>)
    ensures r == ExpandArgs(args)
  {
    var expanded: seq<int> := [];
    var i := 0;
    while i < |args|
      invariant 0 <= i <= |args|
      invariant MapAll(ParseArg, args[..i]).Ok?
      invariant expanded == Expand(MapAll(ParseArg, args[..i]).value)
    {
      assert args[..i + 1][..i] == args[..i];
      var tokens := MapAll(ParseArg, args[..i]).value;
      match ParseArg(args[i])
      case Err(e) =>
        assert MapAll(ParseArg, args[..i + 1]) == Err(e);
        MapAllStopsAtFailure(ParseArg, args, i + 1);
        return Err(e);
      case Ok(t) =>
        ExpandAppend(tokens, [t]);
        assert Expand([t]) == Block(t) + Expand([]);
        expanded := expanded + Block(t);
      i := i + 1;
    }
    assert args[..i] == args;
    r := Ok(expanded);
  }

  /** The entry `20-22` reads as the range from 20 to 22. */
  lemma RangeEntry()
    ensures ParseArg(Word("20-22")) == Ok(Span(20, 22))
  {
    assert NatToDigits(20) == NatToDigits(2) + [DigitChar(0)];
    assert IntToString(20) == "20";
    assert NatToDigits(22) == NatToDigits(2) + [DigitChar(2)];
    assert IntToString(22) == "22";
    assert TokenText(Span(20, 22)) == "20-22";
    ParseTokenText(Span(20, 22));
  }

  /** The tokens of `22 20-22` expand to their blocks in order. */
  lemma DuplicateTokensExpand()
    ensures Expand([Single(22), Span(20, 22)]) == [22, 20, 21, 22]
  {
  }

  /** The entries `22 20-22` expand in order, with the duplicate 22 kept. */
  lemma DuplicatesKept()
    ensures ExpandArgs([Number(22), Word("20-22")]) == Ok([22, 20, 21, 22])
  {
    var args := [Number(22), Word("20-22")];
    var tokens := [Single(22), Span(20, 22)];
    RangeEntry();
    MapAllOk(ParseArg, args, tokens);
    DuplicateTokensExpand();
    assert ExpandArgs(args) == Ok(Expand(tokens));
  }
}

=== FILE: probe.dfy ===
/**
 A single probe of one port: the outcome of the connection attempt is classified
 as open, filtered or closed, the service name is looked up with a fallback, and
 the result is written as one line of text. An exception becomes an error line
 for that port instead of a dropped port.
 */
module Probe {
  import opened Wrappers
  import opened Text

  /** The socket type every probe of a run uses: stream for TCP, datagram for UDP. */
  datatype Protocol = TCP | UDP

  /** What the connection attempt produced: the return code of `connect_ex`, or the exception raised. */
  datatype ConnectOutcome = Returned(code: int) | Raised(message: string)

  /**
   The network seen from the scanner: the outcome of a connection attempt to
   (target, port) with a socket of the given protocol.
   */
  type Network = (string, Protocol, int) -> ConnectOutcome

  datatype Status = Open | Filtered | Closed

  /** The result of one probe, before it is written out as text. */
  datatype ProbeReport =
    | Classified(port: int, status: Status, service: string)
    | Failed(port: int, message: string)

  /** The return code read as "filtered" (EAGAIN on Linux). */
  const FILTERED_CODE: int := 11

  const UNKNOWN_SERVICE: string := "Unknown service"

  /** Total classification of a `connect_ex` return code: every code gets exactly one status. */
  function Classify(code: int): (s: Status)
    ensures s == Open <==> code == 0
    ensures s == Filtered <==> code == FILTERED_CODE
    ensures s == Closed <==> code != 0 && code != FILTERED_CODE
  {
    if code == 0 then Open
    else if code == FILTERED_CODE then Filtered
    else Closed
  }

  /**
   The service name of a port: the entry of the system's service table when
   there is one, otherwise the fallback name; the lookup itself cannot fail.
   */
  function DetectService(services: map<int, string>, port: int): (name: string)
    ensures port in services ==> name == services[port]
    ensures port !in services ==> name == UNKNOWN_SERVICE
    ensures name == UNKNOWN_SERVICE || name in services.Values
  {
    if port in services then services[port] else UNKNOWN_SERVICE
  }

  /**
   One probe: an exception gives an error report carrying its message; a return
   code is classified, and only then is the service name looked up.
   */
  function AnalysePort(target: string, protocol: Protocol, port: int, net: Network, services: map<int, string>)
    : (r: ProbeReport)
    ensures r.port == port
    ensures r.Failed? <==> net(target, protocol, port).Raised?
    ensures r.Failed? ==> r.message == net(target, protocol, port).message
    ensures r.Classified? ==> r.status == Classify(net(target, protocol, port).code)
    ensures r.Classified? ==> r.service == DetectService(services, port)
  {
    match net(target, protocol, port)
    case Raised(message) => Failed(port, message)
    case Returned(code) => Classified(port, Classify(code), DetectService(services, port))
  }

  function StatusName(s: Status): (name: string)
    ensures |name| > 0 && ' ' !in name
  {
    match s
    case Open => "open"
    case Filtered => "filtered"
    case Closed => "closed"
  }

  /** The status a word names, if any; the inverse of `StatusName`. */
  function StatusFromName(name: string): Option<Status> {
    if name == "open" then Some(Open)
    else if name == "filtered" then Some(Filtered)
    else if name == "closed" then Some(Closed)
    else None
  }

  lemma StatusNameRoundTrip(s: Status)
    ensures StatusFromName(StatusName(s)) == Some(s)
  {
  }

  const PORT_PREFIX: string := "Port "
  const STATUS_INFIX: string := " is "
  const SERVICE_INFIX: string := " (Service: "
  const ERROR_PREFIX: string := "Error checking port "
  const ERROR_INFIX: string := ": "

  /** The end of a classified line: `<status> (Service: <name>)`. */
  function StatusText(status: Status, service: string): string {
    StatusName(status) + SERVICE_INFIX + service + ")"
  }

  /** The line printed for a probe. */
  function FormatLine(r: ProbeReport): (line: string)
    ensures PORT_PREFIX <= line <==> r.Classified?
    ensures ERROR_PREFIX <= line <==> r.Failed?
    ensures r.Classified? ==> line[|line| - 1] == ')'
    ensures r.Failed? ==> |r.message| <= |line| && line[|line| - |r.message|..] == r.message
  {
    match r
    case Classified(port, status, service) =>
      var line := PORT_PREFIX + (IntToString(port) + (STATUS_INFIX + StatusText(status, service)));
      assert line[0] != ERROR_PREFIX[0];
      line
    case Failed(port, message) =>
      var line := ERROR_PREFIX + (IntToString(port) + (ERROR_INFIX + message));
      assert line[0] != PORT_PREFIX[0];
      line
  }

  /** Reads a printed line back into the probe report it came from. */
  function ReadLine(line: string): Option<ProbeReport> {
    if PORT_PREFIX <= line then ReadClassified(line[|PORT_PREFIX|..])
    else if ERROR_PREFIX <= line then ReadFailed(line[|ERROR_PREFIX|..])
    else None
  }

  /** Reads `<port> is <status> (Service: <name>)`. */
  function ReadClassified(s: string): Option<ProbeReport> {
    var i := Find(s, ' ');
    var rest := s[i..];
    match ParseInt(s[..i])
    case None => None
    case Some(port) =>
      if STATUS_INFIX <= rest then ReadStatus(port, rest[|STATUS_INFIX|..]) else None
  }

  /** Reads `<status> (Service: <name>)`; the name runs to the final parenthesis. */
  function ReadStatus(port: int, s: string): Option<ProbeReport> {
    var j := Find(s, ' ');
    var rest := s[j..];
    match StatusFromName(s[..j])
    case None => None
    case Some(status) =>
      if SERVICE_INFIX <= rest && |rest| > |SERVICE_INFIX| && rest[|rest| - 1] == ')' then
        Some(Classified(port, status, rest[|SERVICE_INFIX|..|rest| - 1]))
      else
        None
  }

  /** Reads `<port>: <message>`; the message is the rest of the line. */
  function ReadFailed(s: string): Option<ProbeReport> {
    var i := Find(s, ':');
    var rest := s[i..];
    match ParseInt(s[..i])
    case None => None
    case Some(port) =>
      if ERROR_INFIX <= rest then Some(Failed(port, rest[|ERROR_INFIX|..])) else None
  }

  /** The printed form of an integer holds neither a space nor a colon. */
  lemma IntTextHasNoDelimiters(n: int)
    ensures ' ' !in IntToString(n) && ':' !in IntToString(n)
  {
  }

  /** The part after ` is ` reads back as the status and the service name. */
  lemma ReadStatusText(port: int, status: Status, service: string)
    ensures ReadStatus(port, StatusText(status, service)) == Some(Classified(port, status, service))
  {
    StatusNameRoundTrip(status);
    var n := StatusName(status);
    var u := SERVICE_INFIX + service + ")";
    assert StatusText(status, service) == n + u;
    FindAfterChunk(n, u, ' ');
    assert u[|SERVICE_INFIX|..|u| - 1] == service;
  }

  /** The part after `Port ` reads back as the classified report. */
  lemma ReadClassifiedText(port: int, status: Status, service: string)
    ensures ReadClassified(IntToString(port) + (STATUS_INFIX + StatusText(status, service)))
         == Some(Classified(port, status, service))
  {
    IntTextHasNoDelimiters(port);
    ParseIntToString(port);
    ReadStatusText(port, status, service);
    var y := STATUS_INFIX + StatusText(status, service);
    FindAfterChunk(IntToString(port), y, ' ');
    assert y[|STATUS_INFIX|..] == StatusText(status, service);
  }

  /** The part after `Error checking port ` reads back as the error report. */
  lemma ReadFailedText(port: int, message: string)
    ensures ReadFailed(IntToString(port) + (ERROR_INFIX + message)) == Some(Failed(port, message))
  {
    IntTextHasNoDelimiters(port);
    ParseIntToString(port);
    FindAfterChunk(IntToString(port), ERROR_INFIX + message, ':');
  }

  /** Every printed line can be read back: the line determines port, status, service and message. */
  lemma ReadFormatLine(r: ProbeReport)
    ensures ReadLine(FormatLine(r)) == Some(r)
  {
    match r
    case Classified(port, status, service) =>
      var s := IntToString(port) + (STATUS_INFIX + StatusText(status, service));
      ReadClassifiedText(port, status, service);
      assert (PORT_PREFIX + s)[|PORT_PREFIX|..] == s;
    case Failed(port, message) =>
      var s := IntToString(port) + (ERROR_INFIX + message);
      ReadFailedText(port, message);
      assert FormatLine(r)[0] != PORT_PREFIX[0];
      assert (ERROR_PREFIX + s)[|ERROR_PREFIX|..] == s;
  }

  /** Distinct probe results never print as the same line. */
  lemma FormatLineInjective(a: ProbeReport, b: ProbeReport)
    ensures FormatLine(a) == FormatLine(b) ==> a == b
  {
    ReadFormatLine(a);
    ReadFormatLine(b);
  }

  /**
   What CPython's `connect_ex` guarantees about port numbers: it raises
   `OverflowError` for a port outside 0..65535 instead of returning a code.
   */
  ghost predicate PortRangeEnforced(net: Network) {
    forall target, protocol, port :: !(0 <= port <= 65535) ==> net(target, protocol, port).Raised?
  }

  /**
   On such a network a port outside 0..65535 always gets an error line, so the
   service lookup (which would raise an uncaught `OverflowError`) is never reached.
   */
  lemma OutOfRangePortFails(target: string, protocol: Protocol, port: int, net: Network, services: map<int, string>)
    requires PortRangeEnforced(net)
    requires !(0 <= port <= 65535)
    ensures ReadLine(ProbeLine(target, protocol, port, net, services))
         == Some(Failed(port, net(target, protocol, port).message))
  {
    ReadFormatLine(AnalysePort(target, protocol, port, net, services));
  }

  /**
   The string one probe produces. It always names the probed port, it is an
   error line exactly when the connection attempt raised, and the service
   lookup never turns a classified port into an error.
   */
  function ProbeLine(target: string, protocol: Protocol, port: int, net: Network, services: map<int, string>)
    : (line: string)
    ensures ReadLine(line).Some? && ReadLine(line).value.port == port
    ensures ReadLine(line).value.Failed? <==> net(target, protocol, port).Raised?
    ensures ReadLine(line).value.Classified? ==> ReadLine(line).value.status == Classify(net(target, protocol, port).code)
    ensures ReadLine(line) == Some(AnalysePort(target, protocol, port, net, services))
  {
    var report := AnalysePort(target, protocol, port, net, services);
    ReadFormatLine(report);
    FormatLine(report)
  }
}

=== FILE: scanner.dfy ===
/**
 The scan as a whole: the command-line layer turns the `-p` values into the port
 list handed to `main` (with its own default list), `main` substitutes a second
 default for an empty list, expands the entries, and collects one probe line per
 expanded port from a pool of workers, in submission order.
 */
module Scanner {
  import opened Wrappers
  import opened Text
  import opened Expander
  import opened Probe

  /** The ports scanned when the command line gives no `-p` values. */
  const CLI_DEFAULT_PORTS: seq<int> := [21, 22, 53, 80, 443, 445, 8080]

  /** The ports `main` falls back to when it receives an empty list. */
  const MAIN_DEFAULT_PORTS: seq<int> := [22, 80, 443, 8080]

  /** A list of integers as entries of `main`'s port list. */
  function Numbers(ports: seq<int>): (args: seq<PortArg>)
    ensures |args| == |ports|
    ensures forall i :: 0 <= i < |ports| ==> args[i] == Number(ports[i])
  {
    seq(|ports|, i requires 0 <= i < |ports| => Number(ports[i]))
  }

  /**
   The command-line conversion of one `-p` value: a value holding `-` is passed
   on as text for `main` to split, any other value goes through `int()` here.
   */
  function CliArg(s: string): (r: Result<PortArg, ParseError>)
    ensures '-' in s ==> r == Ok(Word(s))
    ensures '-' !in s ==> (r.Ok? <==> IsIntLiteral(s))
    ensures r.Ok? && r.value.Number? ==> r.value.n >= 0
    ensures '-' !in s && r.Ok? ==> r.value == Number(ParseInt(s).value)
    ensures '-' !in s && r.Err? ==> r.error == InvalidLiteral(s)
  {
    if '-' in s then
      Ok(Word(s))
    else
      ParseIntWithoutMinus(s);
      match ParseInt(s)
      case None => Err(InvalidLiteral(s))
      case Some(n) => Ok(Number(n))
  }

  /**
   The port list the command-line layer hands to `main`. `raw` is the value of
   `-p`: `None` when the flag is absent, an empty list when it is given without
   values; both fall back to the command-line default list.
   */
  function CliPorts(raw: Option<seq<string>>): (r: Result<seq<PortArg>, ParseError>)
    ensures r.Ok? ==> |r.value| > 0
    ensures raw.None? || raw.value == [] ==> r == Ok(Numbers(CLI_DEFAULT_PORTS))
    ensures raw.Some? && raw.value != [] ==> (r.Ok? <==> forall i :: 0 <= i < |raw.value| ==> CliArg(raw.value[i]).Ok?)
    ensures raw.Some? && raw.value != [] && r.Ok? ==> |r.value| == |raw.value|
    ensures raw.Some? && raw.value != [] && r.Ok? ==>
              forall i :: 0 <= i < |raw.value| ==> CliArg(raw.value[i]) == Ok(r.value[i])
    ensures raw.Some? && raw.value != [] && r.Err? ==>
              exists i :: 0 <= i < |raw.value| && CliArg(raw.value[i]) == Err(r.error)
                          && forall j :: 0 <= j < i ==> CliArg(raw.value[j]).Ok?
  {
    if raw.None? || |raw.value| == 0 then
      Ok(Numbers(CLI_DEFAULT_PORTS))
    else
      MapAll(CliArg, raw.value)
  }

  /** `main`'s own fallback: an empty list becomes its default list, anything else is kept. */
  function MainPorts(args: seq<PortArg>): (r: seq<PortArg>)
    ensures |r| > 0
    ensures |args| == 0 ==> r == Numbers(MAIN_DEFAULT_PORTS)
    ensures |args| > 0 ==> r == args
  {
    if |args| == 0 then Numbers(MAIN_DEFAULT_PORTS) else args
  }

  /** The command-line layer never hands `main` an empty list, so `main`'s default is dead code on that path. */
  lemma MainDefaultUnreachable(raw: Option<seq<string>>)
    requires CliPorts(raw).Ok?
    ensures MainPorts(CliPorts(raw).value) == CliPorts(raw).value
  {
  }

  /**
   `main`'s default list expands to its four ports, which differ from the seven
   ports the command-line layer defaults to.
   */
  lemma MainDefaultExpands()
    ensures ExpandArgs(MainPorts([])) == Ok(MAIN_DEFAULT_PORTS)
    ensures MAIN_DEFAULT_PORTS != CLI_DEFAULT_PORTS
  {
    var tokens := seq(4, i requires 0 <= i < 4 => Single(MAIN_DEFAULT_PORTS[i]));
    MapAllOk(ParseArg, Numbers(MAIN_DEFAULT_PORTS), tokens);
    ExpandSingles(tokens);
    assert Expand(tokens) == MAIN_DEFAULT_PORTS;
    assert |MAIN_DEFAULT_PORTS| != |CLI_DEFAULT_PORTS|;
  }

  /** The expanded list of ports a run probes, or the error that aborts it. */
  function ScannedPorts(raw: Option<seq<string>>): (r: Result<seq<int>, ParseError>)
    ensures CliPorts(raw).Err? ==> r == Err(CliPorts(raw).error)
    ensures CliPorts(raw).Ok? ==> r == ExpandArgs(CliPorts(raw).value)
  {
    match CliPorts(raw)
    case Err(e) => Err(e)
    case Ok(args) => ExpandArgs(MainPorts(args))
  }

  /** `executor.map` over the expanded ports: one probe line per port, in submission order. */
  function Scan(target: string, protocol: Protocol, ports: seq<int>, net: Network, services: map<int, string>)
    : (lines: seq<string>)
    ensures |lines| == |ports|
    ensures forall i :: 0 <= i < |ports| ==> ReadLine(lines[i]).Some? && ReadLine(lines[i]).value.port == ports[i]
    ensures forall i :: 0 <= i < |ports| ==> ReadLine(lines[i]) == Some(AnalysePort(target, protocol, ports[i], net, services))
  {
    seq(|ports|, i requires 0 <= i < |ports| => ProbeLine(target, protocol, ports[i], net, services))
  }

  /**
   The worker pool: each task applies `work` to one port, tasks finish in any
   order (`completion` lists task indexes as they finish, every task at least
   once) and each result is stored in the slot of its own task; the slots are
   then read in submission order. The output does not depend on the
   completion order.
   */
  method CollectInOrder<T>(work: int -> T, ports: seq<int>, completion: seq<nat>) returns (results: seq<T>)
    requires forall k :: 0 <= k < |completion| ==> completion[k] < |ports|
    requires forall j :: 0 <= j < |ports| ==> j in completion
    ensures |results| == |ports|
    ensures forall i :: 0 <= i < |ports| ==> results[i] == work(ports[i])
  {
    var slots: seq<Option<T>> := seq(|ports|, _ => None);
    var k := 0;
    while k < |completion|
      invariant 0 <= k <= |completion|
      invariant |slots| == |ports|
      invariant forall m :: 0 <= m < k ==> slots[completion[m]] == Some(work(ports[completion[m]]))
    {
      var j := completion[k];
      slots := slots[j := Some(work(ports[j]))];
      k := k + 1;
    }
    forall j | 0 <= j < |ports|
      ensures slots[j] == Some(work(ports[j]))
    {
      assert j in completion;
      var m :| 0 <= m < |completion| && completion[m] == j;
      assert slots[completion[m]] == Some(work(ports[completion[m]]));
    }
    results := [];
    var i := 0;
    while i < |ports|
      invariant 0 <= i <= |ports|
      invariant |results| == i
      invariant forall m :: 0 <= m < i ==> results[m] == work(ports[m])
    {
      results := results + [slots[i].value];
      i := i + 1;
    }
  }

  /** The pool's output is the in-order scan, whichever order the probes finish in. */
  method ScanWithPool(target: string, protocol: Protocol, ports: seq<int>, net: Network,
                      services: map<int, string>, completion: seq<nat>)
    returns (lines: seq<string>)
    requires forall k :: 0 <= k < |completion| ==> completion[k] < |ports|
    requires forall j :: 0 <= j < |ports| ==> j in completion
    ensures lines == Scan(target, protocol, ports, net, services)
  {
    lines := CollectInOrder(p => ProbeLine(target, protocol, p, net, services), ports, completion);
  }

  /** A whole run: the lines printed after the GeoIP line, or the error that aborts the run. */
  function Run(target: string, raw: Option<seq<string>>, protocol: Protocol, net: Network, services: map<int, string>)
    : (r: Result<seq<string>, ParseError>)
    ensures r.Ok? <==> ScannedPorts(raw).Ok?
    ensures r.Ok? ==> |r.value| == |ScannedPorts(raw).value|
    ensures r.Ok? ==> forall i :: 0 <= i < |r.value| ==>
              ReadLine(r.value[i]).Some? && ReadLine(r.value[i]).value.port == ScannedPorts(raw).value[i]
    ensures r.Err? ==> r.error == ScannedPorts(raw).error
    ensures r.Ok? ==> forall i :: 0 <= i < |r.value| ==>
              ReadLine(r.value[i]) == Some(AnalysePort(target, protocol, ScannedPorts(raw).value[i], net, services))
  {
    match ScannedPorts(raw)
    case Err(e) => Err(e)
    case Ok(ports) => Ok(Scan(target, protocol, ports, net, services))
  }

  /** With no `-p` values, the run probes exactly the seven command-line defaults, in order. */
  lemma DefaultRun(target: string, raw: Option<seq<string>>, protocol: Protocol, net: Network, services: map<int, string>)
    requires raw.None? || raw.value == []
    ensures ScannedPorts(raw) == Ok(CLI_DEFAULT_PORTS)
    ensures Run(target, raw, protocol, net, services).Ok?
    ensures |Run(target, raw, protocol, net, services).value| == 7
  {
    var args := Numbers(CLI_DEFAULT_PORTS);
    var tokens := seq(7, i requires 0 <= i < 7 => Single(CLI_DEFAULT_PORTS[i]));
    MapAllOk(ParseArg, args, tokens);
    ExpandSingles(tokens);
    assert Expand(tokens) == CLI_DEFAULT_PORTS;
  }

  /** A list of single-port tokens expands to its ports. */
  lemma {:induction false} ExpandSingles(tokens: seq<Token>)
    requires forall i :: 0 <= i < |tokens| ==> tokens[i].Single?
    ensures Expand(tokens) == seq(|tokens|, i requires 0 <= i < |tokens| => tokens[i].port)
    decreases |tokens|
  {
    if |tokens| > 0 {
      ExpandSingles(tokens[1..]);
    }
  }

  /** Every port reached from the command line is non-negative: a minus sign can only mark a range. */
  lemma CliPortsNonNegative(raw: Option<seq<string>>)
    requires ScannedPorts(raw).Ok?
    ensures forall i :: 0 <= i < |ScannedPorts(raw).value| ==> ScannedPorts(raw).value[i] >= 0
  {
    var args := CliPorts(raw).value;
    MainDefaultUnreachable(raw);
    var tokens := MapAll(ParseArg, args).value;
    forall k | 0 <= k < |tokens|
      ensures Typable(tokens[k])
    {
      assert ParseArg(args[k]) == Ok(tokens[k]);
      if raw.Some? && raw.value != [] {
        assert CliArg(raw.value[k]) == Ok(args[k]);
      }
    }
    TypableExpandsNonNegative(tokens);
  }

  /** The expansion of tokens without negative numbers holds no negative port. */
  lemma {:induction false} TypableExpandsNonNegative(tokens: seq<Token>)
    requires forall k :: 0 <= k < |tokens| ==> Typable(tokens[k])
    ensures forall i :: 0 <= i < |Expand(tokens)| ==> Expand(tokens)[i] >= 0
    decreases |tokens|
  {
    if |tokens| > 0 {
      TypableExpandsNonNegative(tokens[1..]);
    }
  }

  /** A single typed port is scanned as given, whatever its size: there is no bounds check. */
  lemma AnyPortScanned(n: nat)
    ensures ScannedPorts(Some([IntToString(n)])) == Ok([n])
  {
    var s := IntToString(n);
    ParseIntToString(n);
    assert CliArg(s) == Ok(Number(n));
    MapAllOk(CliArg, [s], [Number(n)]);
    assert CliPorts(Some([s])) == Ok([Number(n)]);
    assert MainPorts([Number(n)]) == [Number(n)];
    MapAllOk(ParseArg, [Number(n)], [Single(n)]);
    var tokens := [Single(n)];
    assert tokens[1..] == [];
    assert Expand(tokens) == [n];
    assert ExpandArgs([Number(n)]) == Ok(Expand(tokens));
  }

  /** The run for a single typed port prints exactly that port's probe line. */
  lemma AnyPortRun(target: string, n: nat, protocol: Protocol, net: Network, services: map<int, string>)
    ensures Run(target, Some([IntToString(n)]), protocol, net, services)
         == Ok([ProbeLine(target, protocol, n, net, services)])
  {
    AnyPortScanned(n);
    var lines := Scan(target, protocol, [n], net, services);
    assert lines == [ProbeLine(target, protocol, n, net, services)];
  }

  /** A descending range expands to nothing, and `main`'s default does not step in. */
  lemma DescendingRangeScansNothing(lo: nat, hi: nat)
    requires hi < lo
    ensures ScannedPorts(Some([TokenText(Span(lo, hi))])) == Ok([])
  {
    var s := TokenText(Span(lo, hi));
    ParseTokenText(Span(lo, hi));
    assert s[|IntToString(lo)|] == '-';
    MapAllOk(CliArg, [s], [Word(s)]);
    assert CliPorts(Some([s])) == Ok([Word(s)]);
    assert MainPorts([Word(s)]) == [Word(s)];
    MapAllOk(ParseArg, [Word(s)], [Span(lo, hi)]);
    var tokens := [Span(lo, hi)];
    assert tokens[1..] == [];
    assert Expand(tokens) == [];
    assert ExpandArgs([Word(s)]) == Ok(Expand(tokens));
  }

  /** The run for a descending range prints no line at all. */
  lemma DescendingRangeRun(target: string, lo: nat, hi: nat, protocol: Protocol, net: Network,
                           services: map<int, string>)
    requires hi < lo
    ensures Run(target, Some([TokenText(Span(lo, hi))]), protocol, net, services) == Ok([])
  {
    DescendingRangeScansNothing(lo, hi);
  }

  /** A port listed twice is probed twice, and both lines agree. */
  lemma DuplicateLinesAgree(target: string, protocol: Protocol, ports: seq<int>, net: Network,
                            services: map<int, string>, i: nat, j: nat)
    requires i < |ports| && j < |ports| && ports[i] == ports[j]
    ensures Scan(target, protocol, ports, net, services)[i] == Scan(target, protocol, ports, net, services)[j]
  {
  }

  /** When every connection attempt raises, every port still gets its own error line. */
  lemma UnreachableTargetReportsEveryPort(target: string, protocol: Protocol, ports: seq<int>, net: Network,
                                          services: map<int, string>)
    requires forall p :: net(target, protocol, p).Raised?
    ensures forall i :: 0 <= i < |ports| ==>
              ReadLine(Scan(target, protocol, ports, net, services)[i])
              == Some(Failed(ports[i], net(target, protocol, ports[i]).message))
  {
    forall i | 0 <= i < |ports|
      ensures ReadLine(Scan(target, protocol, ports, net, services)[i])
              == Some(Failed(ports[i], net(target, protocol, ports[i]).message))
    {
      ReadFormatLine(AnalysePort(target, protocol, ports[i], net, services));
    }
  }
}

=== FILE: text.dfy ===
/**
 The string primitives the scanner relies on: Python's `int()` on decimal text,
 `str()` of an integer, `str.split` on a one-character separator, and a search
 for the first occurrence of a character.
 */
module Text {
  import opened Wrappers

  predicate IsDigit(c: char) {
    '0' <= c <= '9'
  }

  predicate IsDigits(s: string) {
    forall i :: 0 <= i < |s| ==> IsDigit(s[i])
  }

  function DigitValue(c: char): (d: nat)
    requires IsDigit(c)
    ensures d < 10
  {
    c as int - '0' as int
  }

  function DigitChar(d: nat): (c: char)
    requires d < 10
    ensures IsDigit(c) && DigitValue(c) == d
  {
    ('0' as int + d) as char
  }

  /** The value of a decimal numeral, most significant digit first. */
  function DigitsValue(s: string): nat
    requires IsDigits(s)
    decreases |s|
  {
    if |s| == 0 then 0 else 10 * DigitsValue(s[..|s| - 1]) + DigitValue(s[|s| - 1])
  }

  /** The decimal numeral of a natural number, without leading zeros. */
  function NatToDigits(n: nat): (s: string)
    ensures |s| > 0 && IsDigits(s)
    ensures DigitsValue(s) == n
    ensures |s| == 1 || s[0] != '0'
    decreases n
  {
    if n < 10 then
      [DigitChar(n)]
    else
      var prefix := NatToDigits(n / 10);
      var s := prefix + [DigitChar(n % 10)];
      assert s[..|s| - 1] == prefix;
      s
  }

  /** Python's `str(n)` for an integer: an optional minus sign and the decimal digits. */
  function IntToString(n: int): (s: string)
    ensures |s| > 0
    ensures forall i :: 0 <= i < |s| ==> IsDigit(s[i]) || (i == 0 && s[i] == '-')
    ensures s[0] == '-' <==> n < 0
    ensures '-' in s <==> n < 0
    ensures n >= 0 ==> IsDigits(s) && DigitsValue(s) == n
    ensures n < 0 ==> IsDigits(s[1..]) && DigitsValue(s[1..]) == -n
    ensures |s| == 1 || s[0] == '-' || s[0] != '0'
    ensures n < 0 ==> |s| == 2 || s[1] != '0'
  {
    if n < 0 then "-" + NatToDigits(-n) else NatToDigits(n)
  }

  /** The integer literals accepted by the model of `int()`: an optional sign, then one or more digits. */
  predicate IsIntLiteral(s: string) {
    || (|s| > 0 && IsDigits(s))
    || (|s| > 1 && (s[0] == '+' || s[0] == '-') && IsDigits(s[1..]))
  }

  /**
   Python's `int(s)` restricted to signed decimal literals; `None` stands for the
   `ValueError` that `int()` raises on anything else.
   */
  function ParseInt(s: string): (r: Option<int>)
    ensures r.Some? <==> IsIntLiteral(s)
    ensures r.Some? && r.value < 0 ==> s[0] == '-'
    ensures r.Some? && IsDigits(s) ==> r.value == DigitsValue(s)
    ensures r.Some? && s[0] == '+' ==> r.value == DigitsValue(s[1..])
    ensures r.Some? && s[0] == '-' ==> r.value == -(DigitsValue(s[1..]) as int)
  {
    if |s| > 0 && (s[0] == '+' || s[0] == '-') then
      var body := s[1..];
      if |body| > 0 && IsDigits(body) then
        var magnitude: int := DigitsValue(body);
        Some(if s[0] == '-' then -magnitude else magnitude)
      else
        None
    else if |s| > 0 && IsDigits(s) then
      Some(DigitsValue(s))
    else
      None
  }

  /** Parsing the printed form of any integer gives that integer back. */
  lemma ParseIntToString(n: int)
    ensures ParseInt(IntToString(n)) == Some(n)
  {
  }

  /** Text without a minus sign never parses to a negative number. */
  lemma ParseIntWithoutMinus(s: string)
    requires '-' !in s
    ensures ParseInt(s).None? || ParseInt(s).value >= 0
  {
  }

  /** Python's `sep.join(pieces)` for a one-character separator. */
  function Join(pieces: seq<string>, sep: char): string
    requires |pieces| >= 1
    decreases |pieces|
  {
    if |pieces| == 1 then pieces[0] else pieces[0] + [sep] + Join(pieces[1..], sep)
  }

  /**
   Python's `s.split(sep)` for a one-character separator: the text between
   consecutive separators, empty pieces included.
   */
  function Split(s: string, sep: char): (pieces: seq<string>)
    ensures |pieces| >= 1
    ensures forall i :: 0 <= i < |pieces| ==> sep !in pieces[i]
    decreases |s|
  {
    if |s| == 0 then
      [""]
    else
      var rest := Split(s[1..], sep);
      if s[0] == sep then
        [""] + rest
      else
        [[s[0]] + rest[0]] + rest[1..]
  }

  /** Joining the pieces back with the separator restores the original text. */
  lemma {:induction false} JoinSplit(s: string, sep: char)
    ensures Join(Split(s, sep), sep) == s
    decreases |s|
  {
    if |s| > 0 {
      var rest := Split(s[1..], sep);
      JoinSplit(s[1..], sep);
      if s[0] == sep {
        assert Split(s, sep)[1..] == rest;
      } else {
        var pieces := Split(s, sep);
        if |rest| == 1 {
          assert pieces == [[s[0]] + rest[0]];
        } else {
          assert pieces[1..] == rest[1..];
          assert Join(rest, sep) == rest[0] + [sep] + Join(rest[1..], sep);
        }
      }
      assert s == [s[0]] + s[1..];
    }
  }

  /** There is always exactly one more piece than there are separators. */
  lemma {:induction false} SplitCount(s: string, sep: char)
    ensures |Split(s, sep)| == multiset(s)[sep] + 1
    decreases |s|
  {
    if |s| > 0 {
      SplitCount(s[1..], sep);
      assert s == [s[0]] + s[1..];
      assert multiset(s) == multiset{s[0]} + multiset(s[1..]);
    }
  }

  /** Splitting a string that holds the separator yields at least two pieces. */
  lemma SplitAtSeparator(s: string, sep: char)
    requires sep in s
    ensures |Split(s, sep)| >= 2
  {
  }

  /** Splitting text that begins with a separator-free chunk keeps that chunk at the front. */
  lemma {:induction false} SplitFreePrefix(x: string, t: string, sep: char)
    requires sep !in x
    ensures Split(x + t, sep) == [x + Split(t, sep)[0]] + Split(t, sep)[1..]
    decreases |x|
  {
    var tail := Split(t, sep);
    if |x| == 0 {
      assert x + t == t;
      assert x + tail[0] == tail[0];
      assert [tail[0]] + tail[1..] == tail;
    } else {
      var s := x + t;
      assert s[0] == x[0] && x[0] != sep;
      assert s[1..] == x[1..] + t;
      SplitFreePrefix(x[1..], t, sep);
      var rest := Split(s[1..], sep);
      assert rest[0] == x[1..] + tail[0];
      assert rest[1..] == tail[1..];
      assert [x[0]] + (x[1..] + tail[0]) == x + tail[0];
    }
  }

  /** `Split` undoes `Join` whenever no piece contains the separator. */
  lemma {:induction false} SplitJoin(pieces: seq<string>, sep: char)
    requires |pieces| >= 1
    requires forall i :: 0 <= i < |pieces| ==> sep !in pieces[i]
    ensures Split(Join(pieces, sep), sep) == pieces
    decreases |pieces|
  {
    if |pieces| == 1 {
      SplitFreePrefix(pieces[0], "", sep);
      assert pieces[0] + "" == pieces[0];
    } else {
      var rest := Join(pieces[1..], sep);
      SplitJoin(pieces[1..], sep);
      var t := [sep] + rest;
      assert t[0] == sep && t[1..] == rest;
      var tail := Split(t, sep);
      assert tail == [""] + pieces[1..];
      assert tail[0] == "" && tail[1..] == pieces[1..];
      assert Join(pieces, sep) == pieces[0] + t;
      SplitFreePrefix(pieces[0], t, sep);
      assert pieces[0] + tail[0] == pieces[0];
      assert pieces == [pieces[0]] + pieces[1..];
    }
  }

  /**
   The index of the first occurrence of `c` in `s`, or `|s|` when there is none;
   the part before it is what a reader takes up to the delimiter.
   */
  function Find(s: string, c: char): (i: nat)
    ensures i <= |s|
    ensures forall j :: 0 <= j < i ==> s[j] != c
    ensures i < |s| ==> s[i] == c
    decreases |s|
  {
    if |s| == 0 then 0
    else if s[0] == c then 0
    else
      1 + Find(s[1..], c)
  }

  /** A delimiter right after a delimiter-free chunk is the first one found. */
  lemma FindAfterChunk(x: string, y: string, c: char)
    requires c !in x
    requires |y| > 0 && y[0] == c
    ensures Find(x + y, c) == |x|
    ensures (x + y)[..|x|] == x && (x + y)[|x|..] == y
  {
  }
}

=== FILE: wrappers.dfy ===
/** Failure-carrying result types shared by the rest of the model. */
module Wrappers {

  /** A value that may be absent, e.g. a failed integer parse or a missing table entry. */
  datatype Option<+T> = None | Some(value: T)

  /** The outcome of an operation that raises on bad input: a value, or the error raised. */
  datatype Result<+T, +E> = Ok(value: T) | Err(error: E)

  /**
   Applies a step that may raise to every element, left to right, as a Python
   loop does: the first error raised is the result and nothing partial is kept.
   */
  function MapAll<A, B, E>(f: A -> Result<B, E>, xs: seq<A>): (r: Result<seq<B>, E>)
    ensures r.Ok? <==> forall i :: 0 <= i < |xs| ==> f(xs[i]).Ok?
    ensures r.Ok? ==> |r.value| == |xs| && forall i :: 0 <= i < |xs| ==> f(xs[i]) == Ok(r.value[i])
    ensures r.Err? ==> exists i :: 0 <= i < |xs| && f(xs[i]) == Err(r.error)
                                   && forall j :: 0 <= j < i ==> f(xs[j]).Ok?
    decreases |xs|
  {
    if |xs| == 0 then
      Ok([])
    else
      var init := xs[..|xs| - 1];
      assert forall i :: 0 <= i < |init| ==> init[i] == xs[i];
      match MapAll(f, init)
      case Err(e) => Err(e)
      case Ok(ys) =>
        match f(xs[|xs| - 1])
        case Err(e) => Err(e)
        case Ok(y) => Ok(ys + [y])
  }

  /** Once a prefix fails, the elements after it are never looked at. */
  lemma {:induction false} MapAllStopsAtFailure<A, B, E>(f: A -> Result<B, E>, xs: seq<A>, k: nat)
    requires k <= |xs|
    requires MapAll(f, xs[..k]).Err?
    ensures MapAll(f, xs) == MapAll(f, xs[..k])
    decreases |xs| - k
  {
    if k < |xs| {
      assert xs[..k + 1][..k] == xs[..k];
      MapAllStopsAtFailure(f, xs, k + 1);
    } else {
      assert xs[..k] == xs;
    }
  }

  /** When every element succeeds, the results are exactly the per-element values. */
  lemma MapAllOk<A, B, E>(f: A -> Result<B, E>, xs: seq<A>, ys: seq<B>)
    requires |ys| == |xs|
    requires forall i :: 0 <= i < |xs| ==> f(xs[i]) == Ok(ys[i])
    ensures MapAll(f, xs) == Ok(ys)
  {
    var r := MapAll(f, xs);
    assert r.Ok?;
    forall i | 0 <= i < |xs|
      ensures r.value[i] == ys[i]
    {
      assert f(xs[i]) == Ok(r.value[i]);
    }
    assert r.value == ys;
  }
}
